=== FILE: README.md ===
# Comment threads and votes of a small social-media client

This project models three pieces of logic from the client's comment and
vote components and proves properties about them. Each database table is
an immutable sequence of rows. Every answer from the store is a parameter:
the write went through, or it failed with a message.

- **The comment tree builder** (`CommentTree`). It takes the flat list of
  a post's comments, already ordered by creation time, and builds a forest
  of reply threads.
  - A comment whose parent id is falsy (`null` or `0`) becomes a root.
  - A comment whose parent id names a comment of the list is appended to
    that comment's children.
  - Any other comment is dropped without an error.
  - Order is kept throughout. `LinkComments` models the source's two
    passes over a node table. With distinct ids it is proved to compute
    the table that `TopLevel` and `ChildrenOf` define directly. With a
    repeated id it places the last comment with that id, as the source's
    map does.
  - `BuildCommentTree` unfolds that table into nested nodes. It is proved
    to unfold the table completely.
  - `ForestHoldsReachableOnce` characterises the whole forest. It holds
    exactly the comments that can be reached from a root through parent
    ids, and holds each of them once.
- **Creating comments and replies** (`CommentMutations`).
  - The submit handlers skip empty text.
  - `createComment` and `createReply` throw when there is no user id or no
    author name. Otherwise they append exactly one row.
  - A top-level comment's parent is normalised with `|| null`. A reply
    stores its parent id unchanged.
  - A failed insert writes nothing and surfaces as an error.
- **The vote reconciler and the counts on the like buttons** (`Votes`).
  - A click inserts, deletes or updates the user's row for the post.
  - The proofs show the transitions and the toggle state machine.
  - They show that the invariant of at most one row per (post, user)
    survives a vote.
  - They show that, starting from no vote on the post, casting the same
    value twice gives back the table unchanged.
  - They characterise the like count, the dislike count and the user's
    current vote.

`Base` holds what the three share:
- optional values and store replies;
- JavaScript truthiness of ids and strings;
- an order-preserving `Filter`, which models both a table read with a
  `where` clause and `Array.prototype.filter`.

## Model

| member | source | states |
|---|---|---|
| CommentTree.LinkComments | src/components/CommentSection.tsx:103-130 | The two passes yield one child list for every id in the list. The roots are the nodes of the comments with a falsy parent id, in list order. The list for `id` holds the nodes of the comments whose parent id is `id`, in list order. A node is the comment stored under that comment's id. With distinct ids each node is the comment itself, so the roots are exactly the top-level comments and each list is exactly the replies. |
| CommentTree.NodeCommentIsLast | src/components/CommentSection.tsx:111-113 | The first pass keys nodes by id, so the node under an id carries the last comment of the list with that id. |
| CommentTree.EmptyNodes | src/components/CommentSection.tsx:110-113 | The first pass creates one entry for each id in the list, and every entry starts with no children. |
| CommentTree.PlaceStep | src/components/CommentSection.tsx:116-123 | One step of the second pass keeps the set of node ids. If every child list held the nodes of the replies among the first `i` comments, then afterwards every child list holds the nodes of the replies among the first `i + 1`. |
| CommentTree.BuildCommentTree | src/components/CommentSection.tsx:103-130 | A comment is a root iff it is in the list and its parent id is `null` or `0` (the truthiness test of line 118). The roots keep list order. Every tree is complete: each node's children are exactly the replies to its comment, in list order, all the way down. |
| CommentTree.ExpandComplete | src/components/CommentSection.tsx:103-130 | Unfolding to a depth equal to the number of comments never cuts a thread short. A root-to-node chain never repeats a comment, so it is never longer than the list. |
| CommentTree.CompleteUnique | src/components/CommentSection.tsx:103-130 | Two complete nodes for the same comment are equal. So the forest is determined by its input, and building it twice gives the same result. |
| CommentTree.ForestHoldsReachableOnce | src/components/CommentSection.tsx:111-129 | A comment occurs in the forest exactly once if a chain of resolvable parent ids leads from it to a root. Otherwise it does not occur at all. |
| CommentTree.RootsKeepInputOrder | src/components/CommentSection.tsx:116-128 | Two top-level comments appear as roots in the order they have in the list. |
| CommentTree.ChildrenKeepInputOrder | src/components/CommentSection.tsx:118-123 | It assumes a node whose children carry the replies to its comment in list order. `BuildCommentTree` proves this of every node of the forest. Two replies then appear among the children in list order, and the lemma returns their positions. |
| CommentTree.PlacedAtMostOnce | src/components/CommentSection.tsx:111-128 | With distinct ids there are no more roots than comments. A comment appears at most once among the roots and at most once in any child list. It is never both a root and a child, and never the child of two ids. |
| CommentTree.DanglingReplyDropped | src/components/CommentSection.tsx:118-123 | A comment whose truthy parent id names no comment of the list is not a root. It is not the child of any comment of the list, and it appears nowhere in the forest. |
| CommentTree.ReplyToShownIsShown | src/components/CommentSection.tsx:118-123 | A reply to a comment that is shown in the forest is shown too. |
| CommentMutations.CreateComment | src/components/CommentSection.tsx:26-45 | Without a non-empty user id and author it throws the login message and writes nothing. If the store rejects the insert, it throws the store's message and writes nothing. It succeeds iff the user id and author are present and the store accepts. On success it appends exactly one row with the given post, text, user id and author. The stored parent is `null` iff the given parent is `undefined`, `null` or `0`; otherwise it is kept as given. |
| CommentMutations.HandleSubmit | src/components/CommentSection.tsx:74-97 | Empty text issues no mutation. Non-empty text is posted iff there is a user with a non-empty id and user name and the store accepts the insert. Without such a user it throws the login message, and if the store rejects it throws the store's message. On success it appends one top-level row (parent `null`) with the user's id and user name as author. Any error leaves the table unchanged. |
| CommentMutations.CreateReply | src/components/CommentItem.tsx:14-34 | It has the same identity guard and store-error behaviour as `CreateComment`, with the reply's login message. On success it appends exactly one row whose parent id is the given id, unchanged. |
| CommentMutations.HandleReplySubmit | src/components/CommentItem.tsx:44-69 | An empty reply issues no mutation. A non-empty reply is posted iff there is a user with a non-empty id and user name and the store accepts the insert. Without such a user it throws the reply login message, and if the store rejects it throws the store's message. On success it appends one row whose parent is the item's comment id, with the user's id and user name. Any error leaves the table unchanged. |
| CommentMutations.SubmittedCommentIsLastRoot | src/components/CommentSection.tsx:90-97 | After a successful top-level submit, reading the post's comments back shows the new comment as the last root. |
| CommentMutations.SubmittedReplyIsLastChild | src/components/CommentItem.tsx:63-69 | After a successful reply, reading back shows the reply as the last child of the item's comment. If the item's id is `0`, it shows as the last root instead. |
| Votes.CastVote | src/components/LikeButton.tsx:16-60 | The vote throws iff the write is rejected. A thrown vote leaves the table unchanged and carries the store's message. The table grows by at most one row. |
| Votes.SubmitVote | src/components/LikeButton.tsx:89-94 | Without a user it throws "You must be logged to vote!" and changes nothing. With a user it throws iff the write is rejected, and any error leaves the table unchanged. With a user it is the reconciler's vote cast as that user. When ids are unique, every row other than that user's row for the post is kept, and no other row appears. After a successful lookup it keeps one row per (post, user) and unique ids. When the write also succeeds, that user's vote on the post moves as `Toggle` says. |
| Votes.UserVoteIsFirstMatch | src/components/LikeButton.tsx:112 | With no user there is no vote. The user's vote is present iff some row belongs to the user, and then it is the value of the first such row. |
| Votes.AggregateBounds | src/components/LikeButton.tsx:109-112 | Likes plus dislikes is at most the number of rows. It equals the number of rows when every value is 1 or -1. An empty list gives 0 likes, 0 dislikes and no vote. |
| Votes.CastVoteFrame | src/components/LikeButton.tsx:16-60 | A vote only touches the row of (post, user). When ids are unique, every other row is kept and no other row appears, whatever the lookup and the write answered. |
| Votes.CastVoteInserts | src/components/LikeButton.tsx:53-59 | With no row for (post, user), a vote appends exactly one row with that post, user and value, and keeps every existing row in place. |
| Votes.FirstVoteCounts | src/components/LikeButton.tsx:109-110 | Counted over the post's rows as the button reads them, a first vote adds one to the likes if its value is 1, or one to the dislikes if its value is -1. It leaves the other count unchanged, and the rows of every other post stay as they were. |
| Votes.CastVoteTogglesOff | src/components/LikeButton.tsx:24-38 | Re-voting the value already held deletes that row. Exactly one row goes, the user has no row for the post afterwards, and every row with another id stays. |
| Votes.CastVoteFlips | src/components/LikeButton.tsx:40-50 | Voting the other value changes only that row's value. Its position, id, post and user stay the same, and every other row is unchanged. |
| Votes.CastVoteKeepsInvariant | src/components/LikeButton.tsx:16-60 | After a successful lookup, a vote keeps at most one row per (post, user). It keeps ids unique when the store hands out a fresh id. |
| Votes.UserVoteIsRow | src/components/LikeButton.tsx:112 | Under the one-row invariant, the user's vote on a post is the value of that user's single row, or none if there is no row. |
| Votes.CastVoteStateMachine | src/components/LikeButton.tsx:16-60 | Seen through the user's vote on the post: no vote becomes the clicked value, the same value becomes no vote, and the other value becomes the clicked value. |
| Votes.SameVoteTwiceRestores | src/components/LikeButton.tsx:17-59 | Starting from no vote, casting the same value twice gives back exactly the original table. |
| Votes.FlipLeavesOneRow | src/components/LikeButton.tsx:40-50 | Starting from no vote, casting one value and then the other leaves exactly one row for (post, user). That row keeps the first insert's id and holds the second value. |
| Votes.FailedLookupDuplicates | src/components/LikeButton.tsx:17-22 | If the lookup fails while a row already exists, the vote inserts a second row for the same (post, user). The invariant therefore depends on the lookup succeeding. |
| Votes.SeveralRowsGrow | src/components/LikeButton.tsx:17-59 | When several rows of (post, user) match, the lookup yields no row and the vote appends another one, so that pair gains a row. |

## Left out

- Store calls (reading and writing comments and votes) are network I/O and are not modelled as such. Tables are sequences. Each call's outcome is a `StoreReply` parameter, and the id the store assigns to a new vote is the `freshId` parameter.
- The ids and creation times the store assigns to new comments are outside the model. `CommentMutations.Stored` takes them as parameters.
- The ordering of the comment read by creation time (src/components/CommentSection.tsx:52) is done by the database. The builder takes its input as already ordered.
- Query caching, cache invalidation after a mutation, the auth context, React state (clearing the text boxes, collapse and reply toggles) and all rendering are framework and UI concerns.
- The loading and error branches of the vote display (src/components/LikeButton.tsx:101-107) are rendering only. The list of votes the counts use is the post's rows, `Votes.PostVotes`.
- The read-then-write race in the vote reconciler is a concurrency matter and not expressible in this sequential model. Instead, the one-row invariant is a precondition that each vote preserves.
- Duplicate comment ids make the first pass overwrite the node of the same id. `LinkComments` models this: wherever a comment is placed, the node placed is the last comment with its id (`NodeComment`). The nested forest (`BuildCommentTree` and the theorems about it) requires distinct ids, so the model does not describe the forest the source builds from repeated ids.
- A check that comment content is non-empty exists only in the two submit handlers, not in `createComment` or `createReply`, and the model follows that.
- The vote read has no ordering, so the order of the rows that `find` (src/components/LikeButton.tsx:112) sees is the database's choice. The model reads them in table order. Under the one-row invariant this makes no difference (`Votes.UserVoteIsRow`). After the duplicate rows that `Votes.FailedLookupDuplicates` and `Votes.SeveralRowsGrow` exhibit, the model's "first matching row" need not be the one the source shows.
- JavaScript numbers are modelled as unbounded integers. Non-integer or `NaN` ids are not modelled.
- Votes.CastVote: its own contract states only the error behaviour and the size bound. The three successful transitions are stated by `Votes.CastVoteInserts`, `Votes.CastVoteTogglesOff` and `Votes.CastVoteFlips`, which assume a successful lookup and write.

## Where the code falls short of the intended behaviour

The model follows the code in each case.

- **Tree completeness.** Every comment whose parent resolves is meant to
  appear exactly once. In the code, some comments with
  resolvable parents still never appear:
  - comments whose parent chain forms a cycle;
  - comments hanging below a comment that was itself dropped.

  This follows from `CommentTree.ForestHoldsReachableOnce`: the forest
  holds exactly the reachable comments.
- **Empty content.** Creating a comment or a reply with empty content is
  meant to fail with a validation error. The create functions have no
  such check; only the submit handlers skip empty text.
- **Duplicate vote rows.** Voting is meant never to produce a second row
  for the same post and user. The reconciler ignores lookup errors, and
  `maybeSingle` yields no row when several rows match. Either case leads
  to another insert: `Votes.FailedLookupDuplicates` shows the first case
  and `Votes.SeveralRowsGrow` the second.

=== FILE: base.dfy ===
/** Values shared by the comment and vote components: optional values,
    the reply a store call gives back, the logged-in user, JavaScript
    truthiness of the few values the components test, and an
    order-preserving filter over sequences (the model of a table read
    with a `where` clause and of `Array.prototype.filter`).
 */
module Base {

  /** A value that may be absent (`undefined` or `null` in the source). */
  datatype Option<T> = None | Some(value: T)

  /** What the store answers to one insert, update, delete or read: it went
      through, or it came back with an error carrying a message. */
  datatype StoreReply = Accepted | Rejected(message: string)

  /** The logged-in user as the identity provider hands it over:
      `user.id` and `user.user_metadata.user_name`, the latter possibly missing. */
  datatype User = User(id: string, userName: Option<string>)

  /** `!!s` for a `string | undefined`: present and not the empty string. */
  predicate Present(s: Option<string>)
  {
    s.Some? && |s.value| > 0
  }

  /** `!!n` for a `number | null | undefined` holding an integer id:
      present and different from 0. */
  predicate TruthyId(n: Option<int>)
  {
    n.Some? && n.value != 0
  }

  /** `user?.id` */
  function UserId(user: Option<User>): Option<string>
  {
    if user.Some? then Some(user.value.id) else None
  }

  /** `user?.user_metadata.user_name` */
  function UserName(user: Option<User>): Option<string>
  {
    if user.Some? then user.value.userName else None
  }

  /** The elements of `s` that satisfy `p`, in the order they have in `s`. */
  function Filter<T(!new)>(s: seq<T>, p: T -> bool): (r: seq<T>)
    ensures |r| <= |s|
    ensures forall x {:trigger x in r} :: x in r <==> x in s && p(x)
    decreases |s|
  {
    if |s| == 0 then []
    else Filter(s[..|s| - 1], p) + (if p(s[|s| - 1]) then [s[|s| - 1]] else [])
  }

  /** Filtering a concatenation filters each part. */
  lemma {:induction false} FilterAppend<T(!new)>(a: seq<T>, b: seq<T>, p: T -> bool)
    ensures Filter(a + b, p) == Filter(a, p) + Filter(b, p)
    decreases |b|
  {
    if |b| == 0 {
      assert a + b == a;
    } else {
      var last := b[|b| - 1];
      var b' := b[..|b| - 1];
      assert (a + b)[..|a + b| - 1] == a + b';
      FilterAppend(a, b', p);
    }
  }

  /** Every element `p` keeps occurs in the filtered sequence exactly as
      often as in the input; every element it rejects does not occur. */
  lemma {:induction false} FilterCount<T(!new)>(s: seq<T>, p: T -> bool, x: T)
    ensures multiset(Filter(s, p))[x] == if p(x) then multiset(s)[x] else 0
    decreases |s|
  {
    if |s| > 0 {
      var s' := s[..|s| - 1];
      assert s == s' + [s[|s| - 1]];
      FilterCount(s', p, x);
    }
  }

  /** Two kept elements keep their relative order: if `s[i]` comes before
      `s[j]` and both satisfy `p`, then the filtered sequence holds `s[i]`
      at some position before one holding `s[j]`. */
  lemma FilterKeepsOrder<T(!new)>(s: seq<T>, p: T -> bool, i: int, j: int)
    requires 0 <= i < j < |s|
    requires p(s[i]) && p(s[j])
    ensures exists k, l :: 0 <= k < l < |Filter(s, p)|
                           && Filter(s, p)[k] == s[i] && Filter(s, p)[l] == s[j]
  {
    FilterPosition(s, p, i);
    FilterPosition(s, p, j);
    FilterPosition(s[..j], p, i);
    assert s[..j][..i] == s[..i];
  }

  /** A kept element `s[j]` sits in the filtered sequence right after the
      kept elements before it. */
  lemma FilterPosition<T(!new)>(s: seq<T>, p: T -> bool, j: int)
    requires 0 <= j < |s| && p(s[j])
    ensures |Filter(s[..j], p)| < |Filter(s, p)|
    ensures Filter(s, p)[|Filter(s[..j], p)|] == s[j]
  {
    assert s == s[..j + 1] + s[j + 1..];
    FilterAppend(s[..j + 1], s[j + 1..], p);
    assert s[..j + 1][..j] == s[..j];
  }

  /** Two filters whose predicates never hold together select at most as
      many elements as the input has; exactly as many when every element
      satisfies one of them. */
  lemma {:induction false} FilterDisjointCounts<T(!new)>(s: seq<T>, p: T -> bool, q: T -> bool)
    requires forall x :: !(p(x) && q(x))
    ensures |Filter(s, p)| + |Filter(s, q)| <= |s|
    ensures (forall k :: 0 <= k < |s| ==> p(s[k]) || q(s[k]))
            ==> |Filter(s, p)| + |Filter(s, q)| == |s|
    decreases |s|
  {
    if |s| > 0 {
      FilterDisjointCounts(s[..|s| - 1], p, q);
    }
  }

  /** A sequence without repeated elements has as many distinct elements as
      its length, and no sequence has more. */
  lemma {:induction false} DistinctElements<T>(s: seq<T>)
    ensures |set x | x in s| <= |s|
    ensures (forall i, j :: 0 <= i < j < |s| ==> s[i] != s[j]) ==> |set x | x in s| == |s|
    decreases |s|
  {
    if |s| > 0 {
      var s' := s[..|s| - 1];
      DistinctElements(s');
      var last := s[|s| - 1];
      assert (set x | x in s) == (set x | x in s') + {last};
      if forall i, j :: 0 <= i < j < |s| ==> s[i] != s[j] {
        assert last !in s';
      }
    }
  }

  /** Every element of `small` is in `big`, so `small` has at most as many
      distinct elements as `big` has entries. */
  lemma SubsetCard<T>(small: set<T>, big: seq<T>)
    requires forall x :: x in small ==> x in big
    ensures |small| <= |big|
  {
    DistinctElements(big);
    var all := set x | x in big;
    SubsetSmaller(small, all);
  }

  /** A subset is no larger than its superset. */
  lemma {:induction false} SubsetSmaller<T>(small: set<T>, big: set<T>)
    requires small <= big
    ensures |small| <= |big|
    decreases small
  {
    if small != {} {
      var x :| x in small;
      SubsetSmaller(small - {x}, big - {x});
    }
  }

  /** No element occurs twice. */
  predicate NoDuplicates<T(==)>(s: seq<T>)
  {
    forall i, j :: 0 <= i < j < |s| ==> s[i] != s[j]
  }

  /** Filtering a sequence without duplicates leaves none. */
  lemma {:induction false} FilterNoDuplicates<T(!new)>(s: seq<T>, p: T -> bool)
    requires NoDuplicates(s)
    ensures NoDuplicates(Filter(s, p))
    decreases |s|
  {
    if |s| > 0 {
      var s' := s[..|s| - 1];
      var last := s[|s| - 1];
      assert NoDuplicates(s');
      FilterNoDuplicates(s', p);
      assert last !in s';
      assert last !in Filter(s', p);
    }
  }

  /** In a sequence without duplicates every element occurs once. */
  lemma {:induction false} NoDuplicatesOnce<T>(s: seq<T>, x: T)
    requires NoDuplicates(s)
    ensures multiset(s)[x] == if x in s then 1 else 0
    decreases |s|
  {
    if |s| > 0 {
      var s' := s[..|s| - 1];
      assert s == s' + [s[|s| - 1]];
      assert NoDuplicates(s');
      NoDuplicatesOnce(s', x);
    }
  }

  /** A filter that keeps every element changes nothing. */
  lemma {:induction false} FilterKeepsAll<T(!new)>(s: seq<T>, p: T -> bool)
    requires forall k :: 0 <= k < |s| ==> p(s[k])
    ensures Filter(s, p) == s
    decreases |s|
  {
    if |s| > 0 {
      var front, last := s[..|s| - 1], s[|s| - 1];
      FilterKeepsAll(front, p);
      assert s == front + [last];
    }
  }

  /** A sequence with no member is empty. */
  lemma NoMemberEmpty<T>(s: seq<T>)
    ensures (forall x :: x !in s) ==> s == []
  {
    if |s| > 0 {
      assert s[0] in s;
    }
  }
}

=== FILE: comment_mutations.dfy ===
/** Creating comments and replies. `CreateComment` (comment section) and
    `CreateReply` (comment item) check the caller's identity and then issue
    one insert into the comments table; the submit handlers in front of
    them skip the mutation when the text box is empty.

    The comments table is a sequence of the rows the client inserts; the
    store adds the id and the creation time when it keeps a row (`Stored`).
    The store's answer to the insert is a parameter. A failed insert writes
    nothing and surfaces as an error, so the operation is never reported
    as successful.
 */
module CommentMutations {
  import opened Base
  import opened CommentTree

  /** What the comment form hands to `createComment`: the text and, for a
      reply, the parent id (`undefined`, `null` or a number). */
  datatype NewComment = NewComment(content: string, parentCommentId: Option<int>)

  /** One row as the client inserts it into the comments table. */
  datatype CommentRow = CommentRow(
    postId: int,
    content: string,
    parentCommentId: Option<int>,
    userId: string,
    author: string)

  /** The errors the two create functions throw. */
  datatype MutationError = NotLoggedIn(message: string) | StoreFailed(message: string)

  /** The comments table after a mutation, and the error it threw, if any. */
  datatype Mutation = Mutation(rows: seq<CommentRow>, error: Option<MutationError>)

  const CommentLoginMessage: string := "You must be logged in to comment."
  const ReplyLoginMessage: string := "You must be logged in to reply."

  /** `rows'` is `rows` with exactly one row appended, and that row is `row`. */
  predicate AppendsOne(rows: seq<CommentRow>, rows': seq<CommentRow>, row: CommentRow)
  {
    |rows'| == |rows| + 1 && rows'[..|rows|] == rows && rows'[|rows|] == row
  }

  /** Insert a comment for `postId`. Without a user id or an author name it
      throws before writing. Otherwise it appends one row carrying the
      post, the text, the user id and the author; a falsy parent id
      (`undefined`, `null`, `0`) is stored as `null`, any other is stored
      as given. A rejected insert writes nothing and throws the store's
      message. */
  function CreateComment(newComment: NewComment, postId: int, userId: Option<string>, author: Option<string>,
                         rows: seq<CommentRow>, store: StoreReply): (m: Mutation)
    ensures !(Present(userId) && Present(author))
            ==> m == Mutation(rows, Some(NotLoggedIn(CommentLoginMessage)))
    ensures Present(userId) && Present(author) && store.Rejected?
            ==> m == Mutation(rows, Some(StoreFailed(store.message)))
    ensures m.error.Some? ==> m.rows == rows
    ensures m.error.None? <==> Present(userId) && Present(author) && store.Accepted?
    ensures m.error.None? ==>
              && |m.rows| == |rows| + 1 && m.rows[..|rows|] == rows
              && m.rows[|rows|].postId == postId
              && m.rows[|rows|].content == newComment.content
              && m.rows[|rows|].userId == userId.value
              && m.rows[|rows|].author == author.value
              && (m.rows[|rows|].parentCommentId == None <==> !TruthyId(newComment.parentCommentId))
              && (TruthyId(newComment.parentCommentId)
                  ==> m.rows[|rows|].parentCommentId == newComment.parentCommentId)
  {
    if !Present(userId) || !Present(author) then
      Mutation(rows, Some(NotLoggedIn(CommentLoginMessage)))
    else
      var parent := if TruthyId(newComment.parentCommentId) then newComment.parentCommentId else None;
      var row := CommentRow(postId, newComment.content, parent, userId.value, author.value);
      if store.Rejected? then Mutation(rows, Some(StoreFailed(store.message)))
      else Mutation(rows + [row], None)
  }

  /** The submit handler of the comment section: an empty text issues no
      mutation; any other text creates a top-level comment (parent `null`)
      as the current user. */
  function HandleSubmit(text: string, postId: int, user: Option<User>,
                        rows: seq<CommentRow>, store: StoreReply): (m: Mutation)
    ensures |text| == 0 ==> m == Mutation(rows, None)
    ensures |text| > 0 && !(user.Some? && |user.value.id| > 0 && Present(user.value.userName))
            ==> m == Mutation(rows, Some(NotLoggedIn(CommentLoginMessage)))
    ensures |text| > 0 && user.Some? && |user.value.id| > 0 && Present(user.value.userName) && store.Rejected?
            ==> m == Mutation(rows, Some(StoreFailed(store.message)))
    ensures |text| > 0
            ==> (m.error.None? <==> user.Some? && |user.value.id| > 0 && Present(user.value.userName) && store.Accepted?)
    ensures m.error.Some? ==> m.rows == rows
    ensures |text| > 0 && m.error.None? ==>
              && user.Some? && user.value.userName.Some?
              && AppendsOne(rows, m.rows,
                            CommentRow(postId, text, None, user.value.id, user.value.userName.value))
  {
    if |text| == 0 then Mutation(rows, None)
    else CreateComment(NewComment(text, None), postId, UserId(user), UserName(user), rows, store)
  }

  /** Insert a reply to the comment with id `parentCommentId`. Without a
      user id or an author name it throws before writing. Otherwise it
      appends one row whose parent id is `parentCommentId` exactly as
      given (no normalisation, unlike `CreateComment`). A rejected insert
      writes nothing and throws the store's message. */
  function CreateReply(replyContent: string, postId: int, parentCommentId: int,
                       userId: Option<string>, author: Option<string>,
                       rows: seq<CommentRow>, store: StoreReply): (m: Mutation)
    ensures !(Present(userId) && Present(author))
            ==> m == Mutation(rows, Some(NotLoggedIn(ReplyLoginMessage)))
    ensures Present(userId) && Present(author) && store.Rejected?
            ==> m == Mutation(rows, Some(StoreFailed(store.message)))
    ensures m.error.Some? ==> m.rows == rows
    ensures m.error.None? <==> Present(userId) && Present(author) && store.Accepted?
    ensures m.error.None? ==>
              AppendsOne(rows, m.rows,
                         CommentRow(postId, replyContent, Some(parentCommentId), userId.value, author.value))
  {
    if !Present(userId) || !Present(author) then
      Mutation(rows, Some(NotLoggedIn(ReplyLoginMessage)))
    else if store.Rejected? then
      Mutation(rows, Some(StoreFailed(store.message)))
    else
      Mutation(rows + [CommentRow(postId, replyContent, Some(parentCommentId), userId.value, author.value)], None)
  }

  /** The submit handler of a comment item: an empty reply issues no
      mutation; any other text creates a reply to that item's comment as
      the current user. */
  function HandleReplySubmit(replyText: string, item: Comment, postId: int, user: Option<User>,
                             rows: seq<CommentRow>, store: StoreReply): (m: Mutation)
    ensures |replyText| == 0 ==> m == Mutation(rows, None)
    ensures |replyText| > 0 && !(user.Some? && |user.value.id| > 0 && Present(user.value.userName))
            ==> m == Mutation(rows, Some(NotLoggedIn(ReplyLoginMessage)))
    ensures |replyText| > 0 && user.Some? && |user.value.id| > 0 && Present(user.value.userName) && store.Rejected?
            ==> m == Mutation(rows, Some(StoreFailed(store.message)))
    ensures |replyText| > 0
            ==> (m.error.None? <==> user.Some? && |user.value.id| > 0 && Present(user.value.userName) && store.Accepted?)
    ensures m.error.Some? ==> m.rows == rows
    ensures |replyText| > 0 && m.error.None? ==>
              && user.Some? && user.value.userName.Some?
              && AppendsOne(rows, m.rows,
                            CommentRow(postId, replyText, Some(item.id), user.value.id, user.value.userName.value))
  {
    if |replyText| == 0 then Mutation(rows, None)
    else CreateReply(replyText, postId, item.id, UserId(user), UserName(user), rows, store)
  }

  /** The comment the store keeps for an inserted row once it has given
      the row an id and a creation time. */
  function Stored(row: CommentRow, id: int, createdAt: string): Comment
  {
    Comment(id, row.postId, row.parentCommentId, row.content, row.userId, createdAt, row.author)
  }

  /** After a successful top-level submit, reading the post's comments
      back (the new one is the newest, so it comes last) shows the new
      comment as the last root. */
  lemma SubmittedCommentIsLastRoot(cs: seq<Comment>, text: string, postId: int, user: Option<User>,
                                   rows: seq<CommentRow>, newId: int, createdAt: string)
    requires |text| > 0
    requires HandleSubmit(text, postId, user, rows, Accepted).error.None?
    ensures var row := HandleSubmit(text, postId, user, rows, Accepted).rows[|rows|];
            TopLevel(cs + [Stored(row, newId, createdAt)]) == TopLevel(cs) + [Stored(row, newId, createdAt)]
  {
  }

  /** After a successful reply from a comment item, reading the post's
      comments back shows the reply as the last child of that item's
      comment. When the item's id is 0 the stored parent id is falsy, so
      the reply comes back as the last root instead. */
  lemma SubmittedReplyIsLastChild(cs: seq<Comment>, replyText: string, item: Comment, postId: int,
                                  user: Option<User>, rows: seq<CommentRow>, newId: int, createdAt: string)
    requires |replyText| > 0
    requires HandleReplySubmit(replyText, item, postId, user, rows, Accepted).error.None?
    ensures var row := HandleReplySubmit(replyText, item, postId, user, rows, Accepted).rows[|rows|];
            var c := Stored(row, newId, createdAt);
            && (item.id != 0 ==> ChildrenOf(cs + [c], item.id) == ChildrenOf(cs, item.id) + [c])
            && (item.id == 0 ==> TopLevel(cs + [c]) == TopLevel(cs) + [c])
  {
  }
}

=== FILE: comment_tree.dfy ===
/** The comment tree builder of the comment section: a flat list of the
    comments of one post, already ordered by creation time, becomes a forest
    of reply threads.

    The source builds it in two passes over the list. The first pass makes
    one node per comment, keyed by id, with an empty list of children. The
    second pass walks the list again and, for each comment, either appends
    its node to the roots (when its parent id is falsy: `null` or `0`), or
    appends it to the children of the node its parent id names, or drops
    it when no node has that id. Nodes are shared by reference, so once the
    second pass is over every node carries all of its replies.

    Here the same result is stated without references: the roots are the
    top-level comments in input order, and the children of the comment with
    id `id` are the comments replying to `id`, in input order
    (`TopLevel`, `ChildrenOf`). `LinkComments` is the two-pass algorithm
    and is proved to compute exactly that table when ids are distinct (a
    repeated id makes it place the last comment with that id, as the
    source's map does); `BuildCommentTree` unfolds
    the table into nested nodes and is proved to unfold it completely.
 */
module CommentTree {
  import opened Base

  /** One row of the comments table as the comment section reads it. */
  datatype Comment = Comment(
    id: int,
    postId: int,
    parentCommentId: Option<int>,
    content: string,
    userId: string,
    createdAt: string,
    author: string)

  /** A comment together with the nodes of its replies: the source's
      `{ ...comment, children: [] }` after the second pass has filled it. */
  datatype CommentNode = CommentNode(comment: Comment, children: seq<CommentNode>)

  /** The builder's test for a root: the parent id is falsy. */
  predicate IsTopLevel(c: Comment)
  {
    !TruthyId(c.parentCommentId)
  }

  /** `c` is a reply to the comment with id `id`: its parent id is truthy
      and equal to `id`. */
  predicate RepliesTo(c: Comment, id: int)
  {
    TruthyId(c.parentCommentId) && c.parentCommentId.value == id
  }

  function Ids(cs: seq<Comment>): set<int>
  {
    set c | c in cs :: c.id
  }

  /** The parent id of `c` names a comment of `cs`. */
  predicate ParentResolves(cs: seq<Comment>, c: Comment)
  {
    TruthyId(c.parentCommentId) && c.parentCommentId.value in Ids(cs)
  }

  /** No two entries of the list share an id (ids are the table's key). */
  predicate DistinctIds(cs: seq<Comment>)
  {
    forall i, j :: 0 <= i < |cs| && 0 <= j < |cs| && cs[i].id == cs[j].id ==> i == j
  }

  /** Reference definition of the roots: the top-level comments, in input order. */
  function TopLevel(cs: seq<Comment>): seq<Comment>
  {
    Filter(cs, IsTopLevel)
  }

  /** Reference definition of the children of `id`: the replies to `id`, in input order. */
  function ChildrenOf(cs: seq<Comment>, id: int): seq<Comment>
  {
    Filter(cs, c => RepliesTo(c, id))
  }

  /** The comments the nodes carry, in order. */
  function Comments(nodes: seq<CommentNode>): seq<Comment>
  {
    seq(|nodes|, k requires 0 <= k < |nodes| => nodes[k].comment)
  }

  /** The comment whose node the first pass leaves under `c`'s id: the
      pass writes one node per comment into a map keyed by id, so a later
      comment with the same id replaces an earlier one, and the last one
      of the list wins. Without any comment of that id, `c` itself. */
  function NodeComment(cs: seq<Comment>, c: Comment): (r: Comment)
    ensures r.id == c.id
    ensures r in cs || r == c
    decreases |cs|
  {
    if |cs| == 0 then c
    else if cs[|cs| - 1].id == c.id then cs[|cs| - 1]
    else NodeComment(cs[..|cs| - 1], c)
  }

  /** The node comments of a list of placed comments, one for one. */
  function NodeComments(cs: seq<Comment>, placed: seq<Comment>): (r: seq<Comment>)
    ensures |r| == |placed|
    ensures forall k :: 0 <= k < |placed| ==> r[k] == NodeComment(cs, placed[k])
  {
    seq(|placed|, k requires 0 <= k < |placed| => NodeComment(cs, placed[k]))
  }

  /** Node comments of a concatenation are those of each part. */
  lemma NodeCommentsAppend(cs: seq<Comment>, a: seq<Comment>, b: seq<Comment>)
    ensures NodeComments(cs, a + b) == NodeComments(cs, a) + NodeComments(cs, b)
  {
    var l, r := NodeComments(cs, a + b), NodeComments(cs, a) + NodeComments(cs, b);
    assert |l| == |r|;
    forall k | 0 <= k < |l|
      ensures l[k] == r[k]
    {
      if k < |a| {
        assert (a + b)[k] == a[k];
      } else {
        assert (a + b)[k] == b[k - |a|];
      }
    }
  }

  /** The node under an id carries the last comment of the list with that id. */
  lemma {:induction false} NodeCommentIsLast(cs: seq<Comment>, c: Comment, i: int)
    requires 0 <= i < |cs| && cs[i].id == c.id
    requires forall j :: i < j < |cs| ==> cs[j].id != c.id
    ensures NodeComment(cs, c) == cs[i]
    decreases |cs|
  {
    if i < |cs| - 1 {
      NodeCommentIsLast(cs[..|cs| - 1], c, i);
    }
  }

  /** With distinct ids no node is overwritten: every comment of the list
      is its own node comment, and a list of such comments is unchanged. */
  lemma NodeCommentsDistinct(cs: seq<Comment>, placed: seq<Comment>)
    requires DistinctIds(cs)
    requires forall x :: x in placed ==> x in cs
    ensures NodeComments(cs, placed) == placed
  {
    forall k | 0 <= k < |placed|
      ensures NodeComment(cs, placed[k]) == placed[k]
    {
      assert placed[k] in placed;
      var i :| 0 <= i < |cs| && cs[i] == placed[k];
      NodeCommentIsLast(cs, placed[k], i);
    }
  }

  /** The two passes of the builder over the flat list. The node table is
      represented by the sequence of child comments each node has gathered,
      keyed by the id of the node's comment. Like the source, the second
      pass places the node stored under a comment's id, which is that
      comment itself unless a later comment of the list shares its id. */
  method LinkComments(cs: seq<Comment>) returns (roots: seq<Comment>, children: map<int, seq<Comment>>)
    ensures roots == NodeComments(cs, TopLevel(cs))
    ensures children.Keys == Ids(cs)
    ensures forall id :: id in children ==> children[id] == NodeComments(cs, ChildrenOf(cs, id))
    ensures DistinctIds(cs) ==> roots == TopLevel(cs)
    ensures DistinctIds(cs) ==> forall id :: id in children ==> children[id] == ChildrenOf(cs, id)
  {
    children := EmptyNodes(cs);
    ghost var ids := children.Keys;
    // second pass: place every comment's node, in input order
    roots := [];
    var i := 0;
    assert cs[..0] == [];
    while i < |cs|
      invariant 0 <= i <= |cs|
      invariant children.Keys == ids
      invariant roots == NodeComments(cs, TopLevel(cs[..i]))
      invariant forall id :: id in children ==> children[id] == NodeComments(cs, ChildrenOf(cs[..i], id))
    {
      var c := cs[i];
      var node := NodeComment(cs, c);
      ghost var before := children;
      if TruthyId(c.parentCommentId) {
        var parent := c.parentCommentId.value;
        if parent in children {
          children := children[parent := children[parent] + [node]];
        }
      } else {
        roots := roots + [node];
      }
      PlaceStep(cs, i, before, children);
      TopLevelStep(cs, i);
      NodeCommentsAppend(cs, TopLevel(cs[..i]), if IsTopLevel(c) then [c] else []);
      i := i + 1;
    }
    assert cs[..|cs|] == cs;
    if DistinctIds(cs) {
      NodeCommentsDistinct(cs, TopLevel(cs));
      forall id | id in children
        ensures children[id] == ChildrenOf(cs, id)
      {
        NodeCommentsDistinct(cs, ChildrenOf(cs, id));
      }
    }
  }

  /** The first pass of the builder: one node with no children per id. */
  method EmptyNodes(cs: seq<Comment>) returns (children: map<int, seq<Comment>>)
    ensures children.Keys == Ids(cs)
    ensures forall id :: id in children ==> children[id] == []
  {
    children := map[];
    var i := 0;
    while i < |cs|
      invariant 0 <= i <= |cs|
      invariant children.Keys == Ids(cs[..i])
      invariant forall id :: id in children ==> children[id] == []
    {
      assert cs[..i + 1] == cs[..i] + [cs[i]];
      children := children[cs[i].id := []];
      i := i + 1;
    }
    assert cs[..|cs|] == cs;
  }

  /** One more comment of the list extends the roots when it is top-level. */
  lemma TopLevelStep(cs: seq<Comment>, i: int)
    requires 0 <= i < |cs|
    ensures TopLevel(cs[..i + 1]) == TopLevel(cs[..i]) + (if IsTopLevel(cs[i]) then [cs[i]] else [])
  {
    assert cs[..i + 1][..i] == cs[..i];
  }

  /** Placing the node of `cs[i]` under its parent (when a node has the
      parent's id) turns the nodes placed for the replies among the first
      `i` comments into those for the first `i + 1`. */
  lemma PlaceStep(cs: seq<Comment>, i: int, before: map<int, seq<Comment>>, after: map<int, seq<Comment>>)
    requires 0 <= i < |cs|
    requires forall id :: id in before ==> before[id] == NodeComments(cs, ChildrenOf(cs[..i], id))
    requires after == if TruthyId(cs[i].parentCommentId) && cs[i].parentCommentId.value in before
                      then before[cs[i].parentCommentId.value :=
                                    before[cs[i].parentCommentId.value] + [NodeComment(cs, cs[i])]]
                      else before
    ensures after.Keys == before.Keys
    ensures forall id :: id in after ==> after[id] == NodeComments(cs, ChildrenOf(cs[..i + 1], id))
  {
    forall id | id in after
      ensures after[id] == NodeComments(cs, ChildrenOf(cs[..i + 1], id))
    {
      NodeListStep(cs, i, id);
      if TruthyId(cs[i].parentCommentId) && cs[i].parentCommentId.value in before
         && id == cs[i].parentCommentId.value {
        assert after[id] == before[id] + [NodeComment(cs, cs[i])];
      } else {
        assert after[id] == before[id] && !RepliesTo(cs[i], id);
      }
    }
  }

  /** The nodes placed for the replies to `id` grow by the node of `cs[i]`
      when `cs[i]` replies to `id`. */
  lemma NodeListStep(cs: seq<Comment>, i: int, id: int)
    requires 0 <= i < |cs|
    ensures NodeComments(cs, ChildrenOf(cs[..i + 1], id))
            == NodeComments(cs, ChildrenOf(cs[..i], id)) + (if RepliesTo(cs[i], id) then [NodeComment(cs, cs[i])] else [])
  {
    ChildrenStep(cs, i, id);
    NodeCommentsAppend(cs, ChildrenOf(cs[..i], id), if RepliesTo(cs[i], id) then [cs[i]] else []);
  }

  /** One more comment of the list extends the replies to `id` when it replies to `id`. */
  lemma ChildrenStep(cs: seq<Comment>, i: int, id: int)
    requires 0 <= i < |cs|
    ensures ChildrenOf(cs[..i + 1], id) == ChildrenOf(cs[..i], id) + (if RepliesTo(cs[i], id) then [cs[i]] else [])
  {
    assert cs[..i + 1][..i] == cs[..i];
  }

  /** The node of `c` with its replies unfolded `fuel` levels deep. */
  function Expand(cs: seq<Comment>, c: Comment, fuel: nat): CommentNode
    decreases fuel
  {
    var kids := ChildrenOf(cs, c.id);
    CommentNode(c, if fuel == 0 then []
                   else seq(|kids|, k requires 0 <= k < |kids| => Expand(cs, kids[k], fuel - 1)))
  }

  /** Every node below `node` (and `node` itself) has as children exactly
      the replies to its comment, in input order: nothing is cut off and
      nothing is added. */
  ghost predicate Complete(cs: seq<Comment>, node: CommentNode)
    decreases node
  {
    && Comments(node.children) == ChildrenOf(cs, node.comment.id)
    && forall k :: 0 <= k < |node.children| ==> Complete(cs, node.children[k])
  }

  /** The forest the comment section renders. The roots are exactly the
      comments of the list whose parent id is `null` or `0`, in input
      order, and every node is complete. */
  function BuildCommentTree(cs: seq<Comment>): (forest: seq<CommentNode>)
    requires DistinctIds(cs)
    ensures forall c :: c in Comments(forest)
                        <==> c in cs && (c.parentCommentId == None || c.parentCommentId == Some(0))
    ensures Comments(forest) == TopLevel(cs)
    ensures forall k :: 0 <= k < |forest| ==> Complete(cs, forest[k])
  {
    var roots := TopLevel(cs);
    var forest := seq(|roots|, k requires 0 <= k < |roots| => Expand(cs, roots[k], |cs|));
    assert forall k :: 0 <= k < |forest| ==> Complete(cs, forest[k]) by {
      forall k | 0 <= k < |forest|
        ensures Complete(cs, forest[k])
      {
        assert roots[k] in roots;
        assert IsThread(cs, [roots[k]]);
        ExpandComplete(cs, [roots[k]], |cs|);
      }
    }
    assert Comments(forest) == roots;
    assert forall c :: IsTopLevel(c) <==> c.parentCommentId == None || c.parentCommentId == Some(0);
    forest
  }

  // ----- why fuel |cs| is enough -----

  /** A thread: a top-level comment of `cs` followed by a reply to it, a
      reply to that reply, and so on. Every node of the forest sits at the
      end of the thread of comments leading down to it. */
  ghost predicate IsThread(cs: seq<Comment>, t: seq<Comment>)
  {
    && |t| > 0
    && (forall k :: 0 <= k < |t| ==> t[k] in cs)
    && IsTopLevel(t[0])
    && (forall i, j :: 0 <= i && j == i + 1 && j < |t| ==> RepliesTo(t[j], t[i].id))
  }

  /** With distinct ids, a comment of the list is determined by its id. */
  lemma SameIdSameComment(cs: seq<Comment>, a: Comment, b: Comment)
    requires DistinctIds(cs)
    requires a in cs && b in cs && a.id == b.id
    ensures a == b
  {
  }

  /** A thread never visits a comment twice: walking back from two equal
      entries would reach the top-level comment from a reply. */
  lemma {:induction false} ThreadNoRepeat(cs: seq<Comment>, t: seq<Comment>, i: int, j: int)
    requires DistinctIds(cs) && IsThread(cs, t)
    requires 0 <= i < j < |t|
    ensures t[i] != t[j]
    decreases i
  {
    assert RepliesTo(t[j], t[j - 1].id);
    if i > 0 && t[i] == t[j] {
      assert RepliesTo(t[i], t[i - 1].id) && RepliesTo(t[j], t[j - 1].id);
      SameIdSameComment(cs, t[i - 1], t[j - 1]);
      ThreadNoRepeat(cs, t, i - 1, j - 1);
    }
  }

  /** A thread is no longer than the list. */
  lemma ThreadBound(cs: seq<Comment>, t: seq<Comment>)
    requires DistinctIds(cs) && IsThread(cs, t)
    ensures |t| <= |cs|
  {
    forall i, j | 0 <= i < j < |t|
      ensures t[i] != t[j]
    {
      ThreadNoRepeat(cs, t, i, j);
    }
    DistinctElements(t);
    SubsetCard((set x | x in t), cs);
  }

  /** Unfolding the last comment of a thread `t` with `fuel` levels, where
      `|t| + fuel` reaches the length of the list, yields a complete node:
      no thread is long enough for the fuel to run out before the replies do. */
  lemma {:induction false} ExpandComplete(cs: seq<Comment>, t: seq<Comment>, fuel: nat)
    requires DistinctIds(cs) && IsThread(cs, t)
    requires |t| + fuel >= |cs|
    ensures Complete(cs, Expand(cs, t[|t| - 1], fuel))
    decreases fuel
  {
    var c := t[|t| - 1];
    var kids := ChildrenOf(cs, c.id);
    var node := Expand(cs, c, fuel);
    if fuel == 0 {
      ThreadEndIsLeaf(cs, t);
    } else {
      ExpandChildren(cs, c, fuel);
      forall k | 0 <= k < |kids|
        ensures Complete(cs, node.children[k])
      {
        assert kids[k] in kids;
        var t' := t + [kids[k]];
        assert IsThread(cs, t');
        ExpandComplete(cs, t', fuel - 1);
      }
    }
  }

  /** A thread as long as the list ends in a comment without replies. */
  lemma ThreadEndIsLeaf(cs: seq<Comment>, t: seq<Comment>)
    requires DistinctIds(cs) && IsThread(cs, t)
    requires |t| >= |cs|
    ensures ChildrenOf(cs, t[|t| - 1].id) == []
  {
    var kids := ChildrenOf(cs, t[|t| - 1].id);
    if |kids| > 0 {
      assert kids[0] in kids;
      assert IsThread(cs, t + [kids[0]]);
      ThreadBound(cs, t + [kids[0]]);
      assert false;
    }
  }

  /** With fuel left, the children of an unfolded node are the unfolded
      replies, one per reply and in the same order. */
  lemma ExpandChildren(cs: seq<Comment>, c: Comment, fuel: nat)
    requires fuel > 0
    ensures Comments(Expand(cs, c, fuel).children) == ChildrenOf(cs, c.id)
    ensures forall k :: 0 <= k < |ChildrenOf(cs, c.id)| ==>
              Expand(cs, c, fuel).children[k] == Expand(cs, ChildrenOf(cs, c.id)[k], fuel - 1)
  {
  }

  /** A complete node is determined by its comment: any two complete nodes
      for the same comment are equal, so the forest does not depend on how
      it was unfolded, and building twice gives the same forest. */
  lemma {:induction false} CompleteUnique(cs: seq<Comment>, a: CommentNode, b: CommentNode)
    requires Complete(cs, a) && Complete(cs, b)
    requires a.comment == b.comment
    ensures a == b
    decreases a
  {
    assert Comments(a.children) == Comments(b.children);
    assert |a.children| == |Comments(a.children)|;
    forall k | 0 <= k < |a.children|
      ensures a.children[k] == b.children[k]
    {
      assert a.children[k].comment == Comments(a.children)[k];
      CompleteUnique(cs, a.children[k], b.children[k]);
    }
  }

  // ----- what the forest holds -----

  /** The comments of a forest, each node before its replies. */
  function Flatten(nodes: seq<CommentNode>): seq<Comment>
    decreases nodes
  {
    if |nodes| == 0 then [] else Subtree(nodes[0]) + Flatten(nodes[1..])
  }

  /** The comments of one node and everything below it. */
  function Subtree(node: CommentNode): seq<Comment>
    decreases node
  {
    [node.comment] + Flatten(node.children)
  }

  /** `x` ends some thread of `cs`: following parent ids up from `x` leads,
      through comments of the list, to a top-level comment. */
  ghost predicate Reachable(cs: seq<Comment>, x: Comment)
  {
    exists t {:trigger IsThread(cs, t)} :: IsThread(cs, t) && t[|t| - 1] == x
  }

  /** With distinct ids no comment is listed twice, so neither the roots nor
      any list of children holds a comment twice. */
  lemma DistinctIdsNoDuplicates(cs: seq<Comment>)
    requires DistinctIds(cs)
    ensures NoDuplicates(cs)
  {
  }

  /** A thread ends in a top-level comment exactly when it is that comment alone. */
  lemma ThreadEnd(cs: seq<Comment>, t: seq<Comment>)
    requires IsThread(cs, t)
    ensures IsTopLevel(t[|t| - 1]) <==> |t| == 1
  {
    if |t| > 1 {
      assert RepliesTo(t[|t| - 1], t[|t| - 2].id);
    }
  }

  /** The thread leading to a comment is unique: walking up by parent id is
      deterministic once ids are distinct. */
  lemma {:induction false} ThreadUnique(cs: seq<Comment>, t1: seq<Comment>, t2: seq<Comment>)
    requires DistinctIds(cs) && IsThread(cs, t1) && IsThread(cs, t2)
    requires t1[|t1| - 1] == t2[|t2| - 1]
    ensures t1 == t2
    decreases |t1|
  {
    var n1, n2 := |t1|, |t2|;
    ThreadEnd(cs, t1);
    ThreadEnd(cs, t2);
    if n1 > 1 {
      assert RepliesTo(t1[n1 - 1], t1[n1 - 2].id) && RepliesTo(t2[n2 - 1], t2[n2 - 2].id);
      SameIdSameComment(cs, t1[n1 - 2], t2[n2 - 2]);
      var u1, u2 := t1[..n1 - 1], t2[..n2 - 1];
      assert IsThread(cs, u1) && IsThread(cs, u2);
      ThreadUnique(cs, u1, u2);
      assert t1 == u1 + [t1[n1 - 1]] && t2 == u2 + [t2[n2 - 1]];
    }
  }

  /** The comments of a forest are those of its trees. */
  lemma {:induction false} FlattenMember(nodes: seq<CommentNode>, x: Comment)
    ensures x in Flatten(nodes) <==> exists k :: 0 <= k < |nodes| && x in Subtree(nodes[k])
    decreases |nodes|
  {
    if |nodes| > 0 {
      var rest := nodes[1..];
      FlattenMember(rest, x);
      if x in Flatten(rest) {
        var k :| 0 <= k < |rest| && x in Subtree(rest[k]);
        assert rest[k] == nodes[k + 1];
      }
      if exists k :: 0 <= k < |nodes| && x in Subtree(nodes[k]) {
        var k :| 0 <= k < |nodes| && x in Subtree(nodes[k]);
        if k > 0 {
          assert nodes[k] == rest[k - 1];
        }
      }
    }
  }

  /** A comment that lies in at most one tree of a forest, at most once
      there, lies in the forest at most once. */
  lemma {:induction false} FlattenOnce(nodes: seq<CommentNode>, x: Comment)
    requires forall k :: 0 <= k < |nodes| ==> multiset(Subtree(nodes[k]))[x] <= 1
    requires forall k1, k2 :: 0 <= k1 < k2 < |nodes| && x in Subtree(nodes[k1]) ==> x !in Subtree(nodes[k2])
    ensures multiset(Flatten(nodes))[x] <= 1
    decreases |nodes|
  {
    if |nodes| > 0 {
      var rest := nodes[1..];
      assert forall k :: 0 <= k < |rest| ==> rest[k] == nodes[k + 1];
      FlattenOnce(rest, x);
      FlattenMember(rest, x);
      assert Flatten(nodes) == Subtree(nodes[0]) + Flatten(rest);
    }
  }

  /** What a complete node says about its `k`-th child: it is complete,
      its comment is a comment of the list replying to the node's comment,
      and no other child carries the same comment. */
  lemma CompleteChild(cs: seq<Comment>, node: CommentNode, k: int)
    requires DistinctIds(cs) && Complete(cs, node)
    requires 0 <= k < |node.children|
    ensures Complete(cs, node.children[k])
    ensures node.children[k].comment in cs
    ensures RepliesTo(node.children[k].comment, node.comment.id)
    ensures forall j :: 0 <= j < |node.children| && j != k
                        ==> node.children[j].comment != node.children[k].comment
  {
    var kids := ChildrenOf(cs, node.comment.id);
    assert Comments(node.children) == kids;
    assert node.children[k].comment == kids[k];
    assert kids[k] in kids;
    DistinctIdsNoDuplicates(cs);
    FilterNoDuplicates(cs, c => RepliesTo(c, node.comment.id));
    forall j | 0 <= j < |node.children| && j != k
      ensures node.children[j].comment != node.children[k].comment
    {
      assert node.children[j].comment == kids[j];
    }
  }

  /** A reply to the last comment of a thread extends the thread. */
  lemma ExtendThread(cs: seq<Comment>, t: seq<Comment>, x: Comment)
    requires IsThread(cs, t)
    requires x in cs && RepliesTo(x, t[|t| - 1].id)
    ensures IsThread(cs, t + [x])
  {
  }

  /** Every comment below the comment of a complete node that ends a thread
      `t` ends a thread extending `t`; the lemma returns that thread. */
  lemma {:induction false} SubtreeThread(cs: seq<Comment>, t: seq<Comment>, node: CommentNode, x: Comment)
    returns (u: seq<Comment>)
    requires DistinctIds(cs) && IsThread(cs, t) && Complete(cs, node)
    requires node.comment == t[|t| - 1]
    requires x in Subtree(node)
    ensures IsThread(cs, u) && |t| <= |u| && u[|u| - 1] == x
    ensures forall i :: 0 <= i < |t| ==> u[i] == t[i]
    decreases node
  {
    if x == node.comment {
      u := t;
    } else {
      var k := ChildAbove(cs, t, node, x);
      var t' := t + [node.children[k].comment];
      u := SubtreeThread(cs, t', node.children[k], x);
      assert forall i :: 0 <= i < |t| ==> t'[i] == t[i];
    }
  }

  /** A comment strictly below a complete node lies below one of its
      children, and that child extends the node's thread by one step; the
      lemma returns the child's position. */
  lemma ChildAbove(cs: seq<Comment>, t: seq<Comment>, node: CommentNode, x: Comment) returns (k: int)
    requires DistinctIds(cs) && IsThread(cs, t) && Complete(cs, node)
    requires node.comment == t[|t| - 1]
    requires x in Subtree(node) && x != node.comment
    ensures 0 <= k < |node.children| && x in Subtree(node.children[k])
    ensures Complete(cs, node.children[k])
    ensures IsThread(cs, t + [node.children[k].comment])
  {
    assert x in Flatten(node.children);
    FlattenMember(node.children, x);
    k :| 0 <= k < |node.children| && x in Subtree(node.children[k]);
    CompleteChild(cs, node, k);
    ExtendThread(cs, t, node.children[k].comment);
  }

  /** Two different children of a complete node share no comment below them. */
  lemma SiblingsDisjoint(cs: seq<Comment>, t: seq<Comment>, node: CommentNode, x: Comment, k1: int, k2: int)
    requires DistinctIds(cs) && IsThread(cs, t) && Complete(cs, node)
    requires node.comment == t[|t| - 1]
    requires 0 <= k1 < |node.children| && 0 <= k2 < |node.children| && k1 != k2
    requires x in Subtree(node.children[k1])
    ensures x !in Subtree(node.children[k2])
  {
    var n1, n2 := node.children[k1], node.children[k2];
    CompleteChild(cs, node, k1);
    CompleteChild(cs, node, k2);
    if x in Subtree(n2) {
      var t1, t2 := t + [n1.comment], t + [n2.comment];
      ExtendThread(cs, t, n1.comment);
      ExtendThread(cs, t, n2.comment);
      var u1 := SubtreeThread(cs, t1, n1, x);
      var u2 := SubtreeThread(cs, t2, n2, x);
      assert u1[|t|] == t1[|t|] == n1.comment;
      assert u2[|t|] == t2[|t|] == n2.comment;
      ThreadUnique(cs, u1, u2);
      assert false;
    }
  }

  /** The comment of a complete node does not occur again below it. */
  lemma NotBelowItself(cs: seq<Comment>, t: seq<Comment>, node: CommentNode)
    requires DistinctIds(cs) && IsThread(cs, t) && Complete(cs, node)
    requires node.comment == t[|t| - 1]
    ensures node.comment !in Flatten(node.children)
  {
    var c := node.comment;
    FlattenMember(node.children, c);
    if c in Flatten(node.children) {
      var k :| 0 <= k < |node.children| && c in Subtree(node.children[k]);
      CompleteChild(cs, node, k);
      var kid := node.children[k].comment;
      ExtendThread(cs, t, kid);
      var u := SubtreeThread(cs, t + [kid], node.children[k], c);
      ThreadUnique(cs, u, t);
      assert false;
    }
  }

  /** Below a complete node whose comment ends a thread no comment occurs twice. */
  lemma {:induction false} SubtreeOnce(cs: seq<Comment>, t: seq<Comment>, node: CommentNode, x: Comment)
    requires DistinctIds(cs) && IsThread(cs, t) && Complete(cs, node)
    requires node.comment == t[|t| - 1]
    ensures multiset(Subtree(node))[x] <= 1
    decreases node
  {
    forall k | 0 <= k < |node.children|
      ensures multiset(Subtree(node.children[k]))[x] <= 1
    {
      CompleteChild(cs, node, k);
      ExtendThread(cs, t, node.children[k].comment);
      SubtreeOnce(cs, t + [node.children[k].comment], node.children[k], x);
    }
    forall k1, k2 | 0 <= k1 < k2 < |node.children| && x in Subtree(node.children[k1])
      ensures x !in Subtree(node.children[k2])
    {
      SiblingsDisjoint(cs, t, node, x, k1, k2);
    }
    FlattenOnce(node.children, x);
    NotBelowItself(cs, t, node);
    assert Subtree(node) == [node.comment] + Flatten(node.children);
  }

  /** Below a complete node lies the last comment of every thread that
      passes through the node's comment. */
  lemma {:induction false} ThreadInSubtree(cs: seq<Comment>, t: seq<Comment>, node: CommentNode, u: seq<Comment>)
    requires DistinctIds(cs) && IsThread(cs, t) && IsThread(cs, u) && Complete(cs, node)
    requires node.comment == t[|t| - 1]
    requires |t| <= |u| && u[..|t|] == t
    ensures u[|u| - 1] in Subtree(node)
    decreases |u| - |t|
  {
    if |u| == |t| {
      assert u == u[..|t|];
    } else {
      var next := u[|t|];
      assert u[|t| - 1] == node.comment;
      assert RepliesTo(next, node.comment.id);
      var kids := ChildrenOf(cs, node.comment.id);
      assert next in kids;
      assert Comments(node.children) == kids;
      var k :| 0 <= k < |kids| && kids[k] == next;
      assert node.children[k].comment == next;
      CompleteChild(cs, node, k);
      var t' := t + [next];
      assert u[..|t'|] == t';
      ThreadInSubtree(cs, t', node.children[k], u);
      FlattenMember(node.children, u[|u| - 1]);
    }
  }

  /** A forest whose roots are the top-level comments, in order, and whose
      nodes are all complete: the shape `BuildCommentTree` promises. */
  ghost predicate WellFormedForest(cs: seq<Comment>, forest: seq<CommentNode>)
  {
    && Comments(forest) == TopLevel(cs)
    && forall k :: 0 <= k < |forest| ==> Complete(cs, forest[k])
  }

  /** The `k`-th tree of a well-formed forest starts the thread made of its root alone. */
  lemma ForestRoot(cs: seq<Comment>, forest: seq<CommentNode>, k: int)
    requires WellFormedForest(cs, forest)
    requires 0 <= k < |forest|
    ensures Complete(cs, forest[k])
    ensures IsThread(cs, [forest[k].comment])
  {
    var roots := TopLevel(cs);
    assert forest[k].comment == Comments(forest)[k] == roots[k];
    assert roots[k] in roots;
  }

  /** In a well-formed forest no comment occurs twice. */
  lemma ForestOnce(cs: seq<Comment>, forest: seq<CommentNode>, x: Comment)
    requires DistinctIds(cs) && WellFormedForest(cs, forest)
    ensures multiset(Flatten(forest))[x] <= 1
  {
    forall k | 0 <= k < |forest|
      ensures multiset(Subtree(forest[k]))[x] <= 1
    {
      ForestRoot(cs, forest, k);
      SubtreeOnce(cs, [forest[k].comment], forest[k], x);
    }
    forall k1, k2 | 0 <= k1 < k2 < |forest| && x in Subtree(forest[k1])
      ensures x !in Subtree(forest[k2])
    {
      if x in Subtree(forest[k2]) {
        ForestRoot(cs, forest, k1);
        ForestRoot(cs, forest, k2);
        var u1 := SubtreeThread(cs, [forest[k1].comment], forest[k1], x);
        var u2 := SubtreeThread(cs, [forest[k2].comment], forest[k2], x);
        DistinctIdsNoDuplicates(cs);
        FilterNoDuplicates(cs, IsTopLevel);
        assert Comments(forest)[k1] != Comments(forest)[k2];
        ThreadUnique(cs, u1, u2);
        assert false;
      }
    }
    FlattenOnce(forest, x);
  }

  /** A well-formed forest holds a comment exactly when the comment is reachable. */
  lemma ForestReachable(cs: seq<Comment>, forest: seq<CommentNode>, x: Comment)
    requires DistinctIds(cs) && WellFormedForest(cs, forest)
    ensures x in Flatten(forest) <==> Reachable(cs, x)
  {
    FlattenMember(forest, x);
    if x in Flatten(forest) {
      var k :| 0 <= k < |forest| && x in Subtree(forest[k]);
      ForestRoot(cs, forest, k);
      var u := SubtreeThread(cs, [forest[k].comment], forest[k], x);
    }
    if Reachable(cs, x) {
      ReachableInForest(cs, forest, x);
    }
  }

  /** A reachable comment lies in the tree of the first comment of its thread. */
  lemma ReachableInForest(cs: seq<Comment>, forest: seq<CommentNode>, x: Comment)
    requires DistinctIds(cs) && WellFormedForest(cs, forest)
    requires Reachable(cs, x)
    ensures exists k :: 0 <= k < |forest| && x in Subtree(forest[k])
  {
    var u :| IsThread(cs, u) && u[|u| - 1] == x;
    var roots := TopLevel(cs);
    assert u[0] in roots;
    var k :| 0 <= k < |roots| && roots[k] == u[0];
    assert forest[k].comment == Comments(forest)[k];
    ForestRoot(cs, forest, k);
    assert u[..1] == [roots[k]];
    ThreadInSubtree(cs, [roots[k]], forest[k], u);
  }

  /** The forest holds exactly the comments reachable from a top-level
      comment through resolvable parent ids, each of them exactly once.
      Every other comment (one whose parent id names no comment of the
      list, or whose chain of parents never reaches a top-level comment)
      is silently left out. */
  lemma ForestHoldsReachableOnce(cs: seq<Comment>, x: Comment)
    requires DistinctIds(cs)
    ensures multiset(Flatten(BuildCommentTree(cs)))[x] == if Reachable(cs, x) then 1 else 0
  {
    var forest := BuildCommentTree(cs);
    ForestOnce(cs, forest, x);
    ForestReachable(cs, forest, x);
  }

  // ----- placement, order and dropping, as the builder's callers see them -----

  /** Roots keep input order: two top-level comments appear as roots in the
      order they have in the list; the lemma returns their positions. */
  lemma RootsKeepInputOrder(cs: seq<Comment>, i: int, j: int) returns (k: int, l: int)
    requires DistinctIds(cs)
    requires 0 <= i < j < |cs| && IsTopLevel(cs[i]) && IsTopLevel(cs[j])
    ensures 0 <= k < l < |BuildCommentTree(cs)|
    ensures BuildCommentTree(cs)[k].comment == cs[i] && BuildCommentTree(cs)[l].comment == cs[j]
  {
    var forest := BuildCommentTree(cs);
    var roots := TopLevel(cs);
    FilterKeepsOrder(cs, IsTopLevel, i, j);
    k, l :| 0 <= k < l < |roots| && roots[k] == cs[i] && roots[l] == cs[j];
    assert forest[k].comment == Comments(forest)[k] && forest[l].comment == Comments(forest)[l];
  }

  /** The children of a node of the forest (every node of a complete tree
      has children carrying the replies to its comment) are exactly the
      replies to its comment found in the list, and two replies appear among
      the children in the order they have in the list; the lemma returns
      their positions. */
  lemma ChildrenKeepInputOrder(cs: seq<Comment>, node: CommentNode, i: int, j: int) returns (k: int, l: int)
    requires Comments(node.children) == ChildrenOf(cs, node.comment.id)
    requires 0 <= i < j < |cs| && RepliesTo(cs[i], node.comment.id) && RepliesTo(cs[j], node.comment.id)
    ensures forall c :: c in Comments(node.children) <==> c in cs && RepliesTo(c, node.comment.id)
    ensures 0 <= k < l < |node.children|
    ensures node.children[k].comment == cs[i] && node.children[l].comment == cs[j]
  {
    var kids := ChildrenOf(cs, node.comment.id);
    FilterKeepsOrder(cs, c => RepliesTo(c, node.comment.id), i, j);
    k, l :| 0 <= k < l < |kids| && kids[k] == cs[i] && kids[l] == cs[j];
    assert node.children[k].comment == Comments(node.children)[k];
    assert node.children[l].comment == Comments(node.children)[l];
  }

  /** With distinct ids each comment is placed at most once across the roots
      and all lists of children: at most once in any one list, never both a
      root and a child, never the child of two ids. There are no more roots
      than comments. */
  lemma PlacedAtMostOnce(cs: seq<Comment>, c: Comment)
    requires DistinctIds(cs)
    ensures |TopLevel(cs)| <= |cs|
    ensures multiset(TopLevel(cs))[c] <= 1
    ensures forall id :: multiset(ChildrenOf(cs, id))[c] <= 1
    ensures c in TopLevel(cs) ==> forall id :: c !in ChildrenOf(cs, id)
    ensures forall id1, id2 :: c in ChildrenOf(cs, id1) && c in ChildrenOf(cs, id2) ==> id1 == id2
  {
    DistinctIdsNoDuplicates(cs);
    NoDuplicatesOnce(cs, c);
    FilterCount(cs, IsTopLevel, c);
    forall id
      ensures multiset(ChildrenOf(cs, id))[c] <= 1
    {
      FilterCount(cs, c' => RepliesTo(c', id), c);
    }
  }

  /** A reply whose parent id names no comment of the list is dropped: it is
      not a root, not a child of any comment of the list, and nowhere in
      the forest. */
  lemma DanglingReplyDropped(cs: seq<Comment>, c: Comment)
    requires DistinctIds(cs)
    requires TruthyId(c.parentCommentId) && c.parentCommentId.value !in Ids(cs)
    ensures c !in Comments(BuildCommentTree(cs))
    ensures forall id :: id in Ids(cs) ==> c !in ChildrenOf(cs, id)
    ensures c !in Flatten(BuildCommentTree(cs))
  {
    var forest := BuildCommentTree(cs);
    ForestReachable(cs, forest, c);
    ReachableReplyResolves(cs, c);
  }

  /** A reachable reply has a parent id naming a comment of the list. */
  lemma ReachableReplyResolves(cs: seq<Comment>, c: Comment)
    ensures Reachable(cs, c) && !IsTopLevel(c) ==> ParentResolves(cs, c)
  {
    if Reachable(cs, c) && !IsTopLevel(c) {
      var t: seq<Comment> :| IsThread(cs, t) && t[|t| - 1] == c;
      ThreadEnd(cs, t);
      assert RepliesTo(t[|t| - 1], t[|t| - 2].id) && t[|t| - 2] in cs;
    }
  }

  /** A reply to a comment shown in the forest is shown too. */
  lemma ReplyToShownIsShown(cs: seq<Comment>, parent: Comment, c: Comment)
    requires DistinctIds(cs)
    requires parent in Flatten(BuildCommentTree(cs))
    requires c in cs && RepliesTo(c, parent.id)
    ensures c in Flatten(BuildCommentTree(cs))
  {
    var forest := BuildCommentTree(cs);
    ForestReachable(cs, forest, parent);
    ForestReachable(cs, forest, c);
    var t: seq<Comment> :| IsThread(cs, t) && t[|t| - 1] == parent;
    ExtendThread(cs, t, c);
  }
}

=== FILE: votes.dfy ===
/** The like button of a post: the vote reconciler that turns a click into
    an insert, a delete or an update of the votes table, and the counts and
    the current user's vote derived from the post's votes.

    The votes table is a sequence of rows. The store's answers are
    parameters: `read` for the lookup of the user's existing vote, `write`
    for the one insert, update or delete that follows, and `freshId` for
    the id the store gives an inserted row. The source ignores the error
    of the lookup, so a failed lookup reads as "no existing vote".
 */
module Votes {
  import opened Base

  /** One row of the votes table. */
  datatype Vote = Vote(id: int, postId: int, userId: string, value: int)

  /** The errors a vote throws. */
  datatype VoteError = NotLoggedIn(message: string) | StoreFailed(message: string)

  /** The votes table after a vote, and the error it threw, if any. */
  datatype VoteWrite = VoteWrite(votes: seq<Vote>, error: Option<VoteError>)

  const VoteLoginMessage: string := "You must be logged to vote!"

  /** The rows of `votes` that belong to user `userId` on post `postId`. */
  function RowsOf(votes: seq<Vote>, postId: int, userId: string): seq<Vote>
  {
    Filter(votes, (v: Vote) => v.postId == postId && v.userId == userId)
  }

  /** The lookup of the existing vote: `maybeSingle()` yields the row when
      exactly one matches and no data otherwise (several matches are an
      error, and the error is not looked at); a failed read yields no data. */
  function ExistingVote(votes: seq<Vote>, postId: int, userId: string, read: StoreReply): Option<Vote>
  {
    var rows := RowsOf(votes, postId, userId);
    if read.Accepted? && |rows| == 1 then Some(rows[0]) else None
  }

  /** `.delete().eq('id', id)` */
  function DeleteById(votes: seq<Vote>, id: int): seq<Vote>
  {
    Filter(votes, (v: Vote) => v.id != id)
  }

  /** `.update({ vote: value }).eq('id', id)` */
  function SetValueById(votes: seq<Vote>, id: int, value: int): seq<Vote>
  {
    seq(|votes|, k requires 0 <= k < |votes| =>
      if votes[k].id == id then votes[k].(value := value) else votes[k])
  }

  /** The vote reconciler. With no existing vote for (post, user) it
      inserts one with the incoming value; with an existing vote of the same
      value it deletes that row (the vote is taken back); with an existing
      vote of the other value it sets that row's value. A rejected write
      changes nothing and throws the store's message. */
  function CastVote(voteValue: int, postId: int, userId: string, votes: seq<Vote>,
                    read: StoreReply, write: StoreReply, freshId: int): (w: VoteWrite)
    ensures w.error.Some? <==> write.Rejected?
    ensures w.error.Some? ==> w.votes == votes && w.error.value == StoreFailed(write.message)
    ensures |w.votes| <= |votes| + 1
  {
    var existing := ExistingVote(votes, postId, userId, read);
    if write.Rejected? then
      VoteWrite(votes, Some(StoreFailed(write.message)))
    else if existing.None? then
      VoteWrite(votes + [Vote(freshId, postId, userId, voteValue)], None)
    else if existing.value.value == voteValue then
      VoteWrite(DeleteById(votes, existing.value.id), None)
    else
      VoteWrite(SetValueById(votes, existing.value.id, voteValue), None)
  }

  /** The mutation behind both buttons: without a logged-in user it throws
      before the reconciler runs; otherwise it casts the vote as that user. */
  function SubmitVote(user: Option<User>, voteValue: int, postId: int, votes: seq<Vote>,
                      read: StoreReply, write: StoreReply, freshId: int): (w: VoteWrite)
    ensures user.None? ==> w == VoteWrite(votes, Some(NotLoggedIn(VoteLoginMessage)))
    ensures w.error.Some? ==> w.votes == votes
    ensures user.Some? ==> (w.error.Some? <==> write.Rejected?)
    ensures user.Some? ==> w == CastVote(voteValue, postId, user.value.id, votes, read, write, freshId)
    ensures user.Some? && UniqueIds(votes)
            ==> && (forall x :: x in votes && !(x.postId == postId && x.userId == user.value.id) ==> x in w.votes)
                && (forall x :: x in w.votes && !(x.postId == postId && x.userId == user.value.id) ==> x in votes)
    ensures user.Some? && read.Accepted? && OneVotePerUser(votes) && UniqueIds(votes) && IsFresh(votes, freshId)
            ==> OneVotePerUser(w.votes) && UniqueIds(w.votes)
    ensures user.Some? && read.Accepted? && write.Accepted?
            && OneVotePerUser(votes) && UniqueIds(votes) && IsFresh(votes, freshId)
            ==> UserVote(PostVotes(w.votes, postId), Some(user.value.id))
                == Toggle(UserVote(PostVotes(votes, postId), Some(user.value.id)), voteValue)
  {
    if user.None? then VoteWrite(votes, Some(NotLoggedIn(VoteLoginMessage)))
    else
      var userId := user.value.id;
      var w := CastVote(voteValue, postId, userId, votes, read, write, freshId);
      assert && (UniqueIds(votes)
                 ==> && (forall x :: x in votes && !(x.postId == postId && x.userId == userId) ==> x in w.votes)
                     && (forall x :: x in w.votes && !(x.postId == postId && x.userId == userId) ==> x in votes))
             && (read.Accepted? && OneVotePerUser(votes) && UniqueIds(votes) && IsFresh(votes, freshId)
             ==> && OneVotePerUser(w.votes) && UniqueIds(w.votes)
                 && (write.Accepted? ==> UserVote(PostVotes(w.votes, postId), Some(userId))
                                         == Toggle(UserVote(PostVotes(votes, postId), Some(userId)), voteValue))) by {
        if UniqueIds(votes) {
          CastVoteFrame(voteValue, postId, userId, votes, read, write, freshId);
        }
        if read.Accepted? && OneVotePerUser(votes) && UniqueIds(votes) && IsFresh(votes, freshId) {
          CastVoteKeepsInvariant(voteValue, postId, userId, votes, write, freshId);
          if write.Accepted? {
            CastVoteStateMachine(voteValue, postId, userId, votes, freshId);
          }
        }
      }
      w
  }

  // ----- aggregates shown on the buttons -----

  /** The votes of one post, as the button reads them. */
  function PostVotes(votes: seq<Vote>, postId: int): seq<Vote>
  {
    Filter(votes, (v: Vote) => v.postId == postId)
  }

  /** The number of rows with value 1. */
  function Likes(votes: seq<Vote>): nat
  {
    |Filter(votes, (v: Vote) => v.value == 1)|
  }

  /** The number of rows with value -1. */
  function Dislikes(votes: seq<Vote>): nat
  {
    |Filter(votes, (v: Vote) => v.value == -1)|
  }

  /** `votes.find(item => item.user_id === userId)?.vote`: the value of
      the first row of the current user; no user means no vote. */
  function UserVote(votes: seq<Vote>, userId: Option<string>): Option<int>
    decreases |votes|
  {
    if userId.None? || |votes| == 0 then None
    else if votes[0].userId == userId.value then Some(votes[0].value)
    else UserVote(votes[1..], userId)
  }

  /** The user's vote is present exactly when some row belongs to the
      user, and then it is the value of the first such row. */
  lemma {:induction false} UserVoteIsFirstMatch(votes: seq<Vote>, userId: string)
    ensures UserVote(votes, None) == None
    ensures UserVote(votes, Some(userId)).Some? <==> exists k :: 0 <= k < |votes| && votes[k].userId == userId
    ensures UserVote(votes, Some(userId)).Some? ==>
              exists i :: 0 <= i < |votes| && votes[i].userId == userId
                          && votes[i].value == UserVote(votes, Some(userId)).value
                          && forall j :: 0 <= j < i ==> votes[j].userId != userId
    decreases |votes|
  {
    if |votes| > 0 && votes[0].userId != userId {
      var rest := votes[1..];
      UserVoteIsFirstMatch(rest, userId);
      assert forall k :: 1 <= k < |votes| ==> votes[k] == rest[k - 1];
      if UserVote(rest, Some(userId)).Some? {
        var i :| 0 <= i < |rest| && rest[i].userId == userId
                 && rest[i].value == UserVote(rest, Some(userId)).value
                 && forall j :: 0 <= j < i ==> rest[j].userId != userId;
        assert votes[i + 1] == rest[i];
      }
    }
  }

  /** Likes and dislikes never add up to more than the rows; they add up to
      all of them when every value is 1 or -1. An empty list has no likes,
      no dislikes and no vote of the current user. */
  lemma AggregateBounds(votes: seq<Vote>, userId: Option<string>)
    ensures Likes(votes) + Dislikes(votes) <= |votes|
    ensures (forall k :: 0 <= k < |votes| ==> votes[k].value == 1 || votes[k].value == -1)
            ==> Likes(votes) + Dislikes(votes) == |votes|
    ensures |votes| == 0 ==> Likes(votes) == 0 && Dislikes(votes) == 0 && UserVote(votes, userId) == None
  {
    FilterDisjointCounts(votes, (v: Vote) => v.value == 1, (v: Vote) => v.value == -1);
  }

  // ----- the invariant: at most one row per (post, user) -----

  /** At most one row per (post, user). */
  predicate OneVotePerUser(votes: seq<Vote>)
  {
    forall i, j :: 0 <= i < |votes| && 0 <= j < |votes|
                   && votes[i].postId == votes[j].postId && votes[i].userId == votes[j].userId
                   ==> i == j
  }

  /** No two rows share an id. */
  predicate UniqueIds(votes: seq<Vote>)
  {
    forall i, j :: 0 <= i < |votes| && 0 <= j < |votes| && votes[i].id == votes[j].id ==> i == j
  }

  /** No row has id `id`. */
  predicate IsFresh(votes: seq<Vote>, id: int)
  {
    forall k :: 0 <= k < |votes| ==> votes[k].id != id
  }

  /** Under the invariant a row is determined by its (post, user). */
  lemma SameKeySameRow(votes: seq<Vote>, a: Vote, b: Vote)
    requires OneVotePerUser(votes)
    requires a in votes && b in votes && a.postId == b.postId && a.userId == b.userId
    ensures a == b
  {
  }

  /** A sequence without duplicates whose elements all equal `e`, and which
      holds `e`, is `[e]`. */
  lemma OnlyElement(s: seq<Vote>, e: Vote)
    requires NoDuplicates(s) && e in s
    requires forall x :: x in s ==> x == e
    ensures s == [e]
  {
    assert (set x | x in s) == {e};
    DistinctElements(s);
    assert s[0] in s;
  }

  /** Under the invariant, the rows of the (post, user) of a row are that row alone. */
  lemma SingleRow(votes: seq<Vote>, e: Vote)
    requires OneVotePerUser(votes) && e in votes
    ensures RowsOf(votes, e.postId, e.userId) == [e]
  {
    var rows := RowsOf(votes, e.postId, e.userId);
    forall x | x in rows
      ensures x == e
    {
      SameKeySameRow(votes, x, e);
    }
    assert NoDuplicates(votes);
    FilterNoDuplicates(votes, (v: Vote) => v.postId == e.postId && v.userId == e.userId);
    OnlyElement(rows, e);
  }

  /** Under the invariant a (post, user) has no row or exactly one. */
  lemma AtMostOneRow(votes: seq<Vote>, postId: int, userId: string)
    requires OneVotePerUser(votes)
    ensures |RowsOf(votes, postId, userId)| <= 1
  {
    var rows := RowsOf(votes, postId, userId);
    if |rows| > 0 {
      assert rows[0] in rows;
      SingleRow(votes, rows[0]);
    }
  }

  /** Filtering keeps the invariant and unique ids. */
  lemma FilterKeepsInvariant(votes: seq<Vote>, p: Vote -> bool)
    requires OneVotePerUser(votes) && UniqueIds(votes)
    ensures OneVotePerUser(Filter(votes, p)) && UniqueIds(Filter(votes, p))
  {
    var r := Filter(votes, p);
    assert NoDuplicates(votes);
    FilterNoDuplicates(votes, p);
    forall i, j | 0 <= i < |r| && 0 <= j < |r| && r[i].postId == r[j].postId && r[i].userId == r[j].userId
      ensures i == j
    {
      assert r[i] in r && r[j] in r;
      SameKeySameRow(votes, r[i], r[j]);
    }
    forall i, j | 0 <= i < |r| && 0 <= j < |r| && r[i].id == r[j].id
      ensures i == j
    {
      assert r[i] in r && r[j] in r;
      var a :| 0 <= a < |votes| && votes[a] == r[i];
      var b :| 0 <= b < |votes| && votes[b] == r[j];
    }
  }

  /** A vote cast after a successful lookup keeps at most one row per
      (post, user), and keeps ids unique when the store hands out a fresh id. */
  lemma CastVoteKeepsInvariant(voteValue: int, postId: int, userId: string, votes: seq<Vote>,
                               write: StoreReply, freshId: int)
    requires OneVotePerUser(votes) && UniqueIds(votes) && IsFresh(votes, freshId)
    ensures OneVotePerUser(CastVote(voteValue, postId, userId, votes, Accepted, write, freshId).votes)
    ensures UniqueIds(CastVote(voteValue, postId, userId, votes, Accepted, write, freshId).votes)
  {
    var rows := RowsOf(votes, postId, userId);
    AtMostOneRow(votes, postId, userId);
    if write.Accepted? {
      if |rows| == 0 {
        var n := Vote(freshId, postId, userId, voteValue);
        var after := votes + [n];
        assert forall k :: 0 <= k < |votes| ==> votes[k] !in rows;
        assert forall k :: 0 <= k < |votes| ==> after[k] == votes[k];
      } else if rows[0].value == voteValue {
        FilterKeepsInvariant(votes, (v: Vote) => v.id != rows[0].id);
      }
    }
  }

  // ----- the reconciler's three transitions -----

  /** A vote touches only the row of (post, user): with unique ids, every
      other row is kept, and no other row appears. This holds whatever the
      lookup and the write answered. */
  lemma CastVoteFrame(voteValue: int, postId: int, userId: string, votes: seq<Vote>,
                      read: StoreReply, write: StoreReply, freshId: int)
    requires UniqueIds(votes)
    ensures var w := CastVote(voteValue, postId, userId, votes, read, write, freshId);
            && (forall x :: x in votes && !(x.postId == postId && x.userId == userId) ==> x in w.votes)
            && (forall x :: x in w.votes && !(x.postId == postId && x.userId == userId) ==> x in votes)
  {
    var w := CastVote(voteValue, postId, userId, votes, read, write, freshId);
    var existing := ExistingVote(votes, postId, userId, read);
    if write.Accepted? && existing.Some? {
      var e := existing.value;
      assert e in RowsOf(votes, postId, userId);
      var i :| 0 <= i < |votes| && votes[i] == e;
      forall x | x in votes && !(x.postId == postId && x.userId == userId)
        ensures x.id != e.id
      {
        var j :| 0 <= j < |votes| && votes[j] == x;
        assert i != j;
      }
      if e.value != voteValue {
        forall x | x in votes && !(x.postId == postId && x.userId == userId)
          ensures x in w.votes
        {
          var j :| 0 <= j < |votes| && votes[j] == x;
          assert w.votes[j] == x;
        }
        forall x | x in w.votes && !(x.postId == postId && x.userId == userId)
          ensures x in votes
        {
          var j :| 0 <= j < |w.votes| && w.votes[j] == x;
          assert votes[j].id != e.id;
        }
      }
    }
  }

  /** With no row for (post, user), a vote inserts exactly one row with that
      post, user and value, and leaves every other row in place. */
  lemma CastVoteInserts(voteValue: int, postId: int, userId: string, votes: seq<Vote>, freshId: int)
    requires RowsOf(votes, postId, userId) == []
    ensures var w := CastVote(voteValue, postId, userId, votes, Accepted, Accepted, freshId);
            && w.error.None?
            && w.votes == votes + [Vote(freshId, postId, userId, voteValue)]
            && RowsOf(w.votes, postId, userId) == [Vote(freshId, postId, userId, voteValue)]
  {
  }

  /** A first vote on a post adds one to the post's likes when it is 1,
      one to its dislikes when it is -1, and nothing to the other count;
      the rows of every other post stay as they were. */
  lemma FirstVoteCounts(voteValue: int, postId: int, userId: string, votes: seq<Vote>, freshId: int)
    requires RowsOf(votes, postId, userId) == []
    ensures var w := CastVote(voteValue, postId, userId, votes, Accepted, Accepted, freshId);
            && Likes(PostVotes(w.votes, postId)) == Likes(PostVotes(votes, postId)) + (if voteValue == 1 then 1 else 0)
            && Dislikes(PostVotes(w.votes, postId)) == Dislikes(PostVotes(votes, postId)) + (if voteValue == -1 then 1 else 0)
            && forall p :: p != postId ==> PostVotes(w.votes, p) == PostVotes(votes, p)
  {
    var n := Vote(freshId, postId, userId, voteValue);
    FilterAppend(votes, [n], (v: Vote) => v.postId == postId);
    assert [n][..0] == [];
    var post := PostVotes(votes, postId);
    FilterAppend(post, [n], (v: Vote) => v.value == 1);
    FilterAppend(post, [n], (v: Vote) => v.value == -1);
    forall p | p != postId
      ensures PostVotes(votes + [n], p) == PostVotes(votes, p)
    {
      FilterAppend(votes, [n], (v: Vote) => v.postId == p);
    }
  }

  /** Voting the value already held deletes that row: the user has no vote
      on the post afterwards, exactly one row is gone, and every row with
      another id is still there. */
  lemma CastVoteTogglesOff(voteValue: int, votes: seq<Vote>, e: Vote, freshId: int)
    requires OneVotePerUser(votes) && UniqueIds(votes)
    requires e in votes && e.value == voteValue
    ensures var w := CastVote(voteValue, e.postId, e.userId, votes, Accepted, Accepted, freshId);
            && w.error.None?
            && RowsOf(w.votes, e.postId, e.userId) == []
            && |w.votes| == |votes| - 1
            && (forall x :: x in w.votes <==> x in votes && x.id != e.id)
  {
    SingleRow(votes, e);
    var after := DeleteById(votes, e.id);
    forall x | x in votes && x.postId == e.postId && x.userId == e.userId
      ensures x == e
    {
      SameKeySameRow(votes, x, e);
    }
    assert forall x :: x !in RowsOf(after, e.postId, e.userId);
    NoMemberEmpty(RowsOf(after, e.postId, e.userId));
    var same := Filter(votes, (v: Vote) => v.id == e.id);
    forall x | x in same
      ensures x == e
    {
      var a :| 0 <= a < |votes| && votes[a] == x;
      var b :| 0 <= b < |votes| && votes[b] == e;
    }
    assert NoDuplicates(votes);
    FilterNoDuplicates(votes, (v: Vote) => v.id == e.id);
    OnlyElement(same, e);
    FilterDisjointCounts(votes, (v: Vote) => v.id != e.id, (v: Vote) => v.id == e.id);
  }

  /** Voting the other value updates the one row of (post, user) in place:
      same position, same id, post and user, new value; every other row is
      unchanged. */
  lemma CastVoteFlips(voteValue: int, votes: seq<Vote>, i: int, freshId: int)
    requires OneVotePerUser(votes) && UniqueIds(votes)
    requires 0 <= i < |votes| && votes[i].value != voteValue
    ensures var w := CastVote(voteValue, votes[i].postId, votes[i].userId, votes, Accepted, Accepted, freshId);
            && w.error.None?
            && |w.votes| == |votes|
            && w.votes[i] == votes[i].(value := voteValue)
            && (forall k :: 0 <= k < |votes| && k != i ==> w.votes[k] == votes[k])
  {
    SingleRow(votes, votes[i]);
  }

  /** The three transitions seen through the user's vote on the post: no
      vote becomes the incoming value, the same value becomes no vote, the
      other value becomes the incoming value. */
  function Toggle(current: Option<int>, voteValue: int): Option<int>
  {
    if current == Some(voteValue) then None else Some(voteValue)
  }

  /** Under the invariant the user's vote on a post is the value of the
      single row of (post, user), or none without such a row. */
  lemma UserVoteIsRow(votes: seq<Vote>, postId: int, userId: string)
    requires OneVotePerUser(votes)
    ensures |RowsOf(votes, postId, userId)| <= 1
    ensures UserVote(PostVotes(votes, postId), Some(userId))
            == if |RowsOf(votes, postId, userId)| == 0 then None
               else Some(RowsOf(votes, postId, userId)[0].value)
  {
    var rows := RowsOf(votes, postId, userId);
    var post := PostVotes(votes, postId);
    AtMostOneRow(votes, postId, userId);
    var r := UserVote(post, Some(userId));
    UserVoteIsFirstMatch(post, userId);
    if |rows| == 1 {
      var e := rows[0];
      assert e in rows;
      assert e in post;
      var k :| 0 <= k < |post| && post[k] == e;
      var i :| 0 <= i < |post| && post[i].userId == userId && post[i].value == r.value
               && forall j :: 0 <= j < i ==> post[j].userId != userId;
      assert post[i] in post;
      SameKeySameRow(votes, post[i], e);
    } else {
      assert forall v :: v in post ==> v.userId != userId by {
        forall v | v in post
          ensures v.userId != userId
        {
          assert v !in rows;
        }
      }
      assert forall k :: 0 <= k < |post| ==> post[k] in post;
    }
  }

  /** The state machine of one (post, user): after a vote cast with both
      store calls going through, the user's vote on the post is `Toggle`
      of what it was. */
  lemma CastVoteStateMachine(voteValue: int, postId: int, userId: string, votes: seq<Vote>, freshId: int)
    requires OneVotePerUser(votes) && UniqueIds(votes) && IsFresh(votes, freshId)
    ensures var w := CastVote(voteValue, postId, userId, votes, Accepted, Accepted, freshId);
            UserVote(PostVotes(w.votes, postId), Some(userId))
            == Toggle(UserVote(PostVotes(votes, postId), Some(userId)), voteValue)
  {
    var w := CastVote(voteValue, postId, userId, votes, Accepted, Accepted, freshId);
    var rows := RowsOf(votes, postId, userId);
    UserVoteIsRow(votes, postId, userId);
    CastVoteKeepsInvariant(voteValue, postId, userId, votes, Accepted, freshId);
    UserVoteIsRow(w.votes, postId, userId);
    if |rows| == 0 {
      CastVoteInserts(voteValue, postId, userId, votes, freshId);
    } else {
      var e := rows[0];
      assert e in rows;
      if e.value == voteValue {
        CastVoteTogglesOff(voteValue, votes, e, freshId);
      } else {
        var i :| 0 <= i < |votes| && votes[i] == e;
        CastVoteFlips(voteValue, votes, i, freshId);
        assert w.votes[i] in w.votes;
        SingleRow(w.votes, w.votes[i]);
      }
    }
  }

  /** Casting the same value twice, starting with no vote on the post,
      gives back the table exactly as it was. */
  lemma SameVoteTwiceRestores(voteValue: int, postId: int, userId: string, votes: seq<Vote>,
                              id1: int, id2: int)
    requires RowsOf(votes, postId, userId) == []
    requires IsFresh(votes, id1)
    ensures var w1 := CastVote(voteValue, postId, userId, votes, Accepted, Accepted, id1);
            var w2 := CastVote(voteValue, postId, userId, w1.votes, Accepted, Accepted, id2);
            w2.error.None? && w2.votes == votes
  {
    var n := Vote(id1, postId, userId, voteValue);
    CastVoteInserts(voteValue, postId, userId, votes, id1);
    FilterAppend(votes, [n], (v: Vote) => v.id != id1);
    FilterKeepsAll(votes, (v: Vote) => v.id != id1);
    assert [n][..0] == [];
  }

  /** Changing values never gives a (post, user) without rows a row. */
  lemma SetValueKeepsNoRows(votes: seq<Vote>, id: int, value: int, postId: int, userId: string)
    requires RowsOf(votes, postId, userId) == []
    ensures RowsOf(SetValueById(votes, id, value), postId, userId) == []
  {
    var updated := SetValueById(votes, id, value);
    forall x | x in updated
      ensures !(x.postId == postId && x.userId == userId)
    {
      var k :| 0 <= k < |votes| && updated[k] == x;
      assert votes[k] !in RowsOf(votes, postId, userId);
    }
    NoMemberEmpty(RowsOf(updated, postId, userId));
  }

  /** Casting one value and then the other, starting with no vote on the
      post, leaves exactly one row for (post, user), holding the second value. */
  lemma FlipLeavesOneRow(v1: int, v2: int, postId: int, userId: string, votes: seq<Vote>,
                         id1: int, id2: int)
    requires RowsOf(votes, postId, userId) == []
    requires v1 != v2
    ensures var w1 := CastVote(v1, postId, userId, votes, Accepted, Accepted, id1);
            var w2 := CastVote(v2, postId, userId, w1.votes, Accepted, Accepted, id2);
            w2.error.None? && RowsOf(w2.votes, postId, userId) == [Vote(id1, postId, userId, v2)]
  {
    var n := Vote(id1, postId, userId, v1);
    CastVoteInserts(v1, postId, userId, votes, id1);
    var updated := SetValueById(votes + [n], id1, v2);
    assert updated == SetValueById(votes, id1, v2) + [n.(value := v2)];
    SetValueKeepsNoRows(votes, id1, v2, postId, userId);
    FilterAppend(SetValueById(votes, id1, v2), [n.(value := v2)],
                 (v: Vote) => v.postId == postId && v.userId == userId);
    assert [n.(value := v2)][..0] == [];
  }

  /** A lookup that fails reads as "no vote", so with a row already there
      the vote inserts a second row for the same (post, user). The
      invariant of `CastVoteKeepsInvariant` therefore needs the lookup to
      succeed. */
  lemma FailedLookupDuplicates(voteValue: int, votes: seq<Vote>, e: Vote, message: string, freshId: int)
    requires e in votes
    ensures var w := CastVote(voteValue, e.postId, e.userId, votes, Rejected(message), Accepted, freshId);
            !OneVotePerUser(w.votes)
  {
    var w := CastVote(voteValue, e.postId, e.userId, votes, Rejected(message), Accepted, freshId);
    var i :| 0 <= i < |votes| && votes[i] == e;
    assert w.votes[i] == e && w.votes[|votes|].postId == e.postId && w.votes[|votes|].userId == e.userId;
  }

  /** When the lookup matches several rows of (post, user), `maybeSingle()`
      yields no row, so the vote inserts yet another one: the table grows
      by one row for (post, user) instead of losing or changing one. */
  lemma SeveralRowsGrow(voteValue: int, postId: int, userId: string, votes: seq<Vote>, freshId: int)
    requires |RowsOf(votes, postId, userId)| >= 2
    ensures var w := CastVote(voteValue, postId, userId, votes, Accepted, Accepted, freshId);
            && w.votes == votes + [Vote(freshId, postId, userId, voteValue)]
            && |RowsOf(w.votes, postId, userId)| == |RowsOf(votes, postId, userId)| + 1
  {
    var n := Vote(freshId, postId, userId, voteValue);
    FilterAppend(votes, [n], (v: Vote) => v.postId == postId && v.userId == userId);
    assert [n][..0] == [];
  }
}
